=== FILE: README.md ===
# SimpleMathGame in Dafny

A model of the console arithmetic quiz `SimpleMathGame` (C#, `SimpleMathGame/Program.cs`).
The game shows a menu (`Random`, `Addition`, `Subtraction`, `Multiplication`,
`Division`, plus 0 for "additional options"), builds a `MathOperation` with two random
operands, reads the player's answer, judges it with `Evaluate`, and appends a `Result`
to the player's `Record`; the history view tallies correct and wrong answers.

Modules, one per part of the program:

- `CSharpInt`: C#'s `int` and `long` (`Int32`, `Int64`), unchecked 32-bit wrap-around
  (`Wrap32`) and the truncating `/` and `%` (`TruncDiv`, `TruncRem`).
- `Randomizer`: the shared `Random` as an explicit `Generator` object whose `Next(lo, hi)`
  has .NET's range contract.
- `Questions`: the operation kinds, `Compute` (each subclass's `Result()` in 32-bit
  arithmetic), and the class `MathOperation` with fields `n1`/`n2`, its constructor,
  `Divide`'s redraw loop `ValidateNumbers`, `Result()` and `Evaluate()`. The abstract class
  with four subclasses becomes one class tagged with a `Kind`.
- `PlayerInput`: the three `ReadInt` overloads over a finite sequence of already-parsed
  console lines (`None` = the line did not parse); `FirstAccepted` specifies them.
- `Records`: the `Result` record, the `Player` with its `record`, and `CorrectCount`.
- `GameUI`: the counting loop of `ShowRecord`.
- `Game`: the `OperationType` enum, `QuestionMaker`'s switch (`SwitchArm`), its recursion
  followed through a sequence of draws (`Resolve`), and the class `SimpleMathGame` with
  `SelectOption`, `QuestionMaker`, `GiveResult` and one pass of the main loop (`PlayRound`).

The menu name `Random` suggests a random choice among the four operations, but the code
draws `Next(1, Operations.Length)`, which is one of {1, 2, 3, 4}: `Random` again,
`Addition`, `Subtraction` or `Multiplication`. The model follows the code, so `Random`
can recur and never produces a division (`Game.Resolve`).

## Model

| member | source | states |
|---|---|---|
| `CSharpInt.Wrap32` | SimpleMathGame/Program.cs:107-117 | unchecked `int` arithmetic: the result is congruent to the exact value modulo 2^32 and equals it whenever it fits |
| `CSharpInt.TruncDivInt32` | SimpleMathGame/Program.cs:132 | C#'s integer division of two `int`s lands in `int` range, except for the zero divisor and `int.MinValue / -1`, where C# throws |
| `Randomizer.Generator.Next` | SimpleMathGame/Program.cs:207-210 | `Random.Next(lo, hi)` returns a value in [lo, hi), or `lo` when the range is empty; the generator's history of draws grows by exactly that value |
| `Questions.Compute` | SimpleMathGame/Program.cs:105-132 | each variant's `Result()` differs from the exact sum, difference, product or truncated quotient by a multiple of 2^32, and equals it whenever that fits in `int` |
| `Questions.DefaultResultsExact` | SimpleMathGame/Program.cs:100-117 | with operands from [1, 101), `Add`, `Subtract` and `Multiply` never overflow: the results are n1+n2 in [2, 200], n1-n2 in [-99, 99] and n1*n2 in [1, 10000] |
| `Questions.DivisorAtMostDividend` | SimpleMathGame/Program.cs:125 | a divisor that divides a positive dividend is no larger than it, so a pair kept by the redraw loop has n2 <= n1 |
| `Questions.DivideResultExact` | SimpleMathGame/Program.cs:120-132 | for a constructed `Divide`, `Result() * n2 == n1` and the quotient lies in [1, 100] |
| `Questions.RedrawSettles` | SimpleMathGame/Program.cs:125-130 | one pass of the redraw loop, divisor and quotient from [1, 11), yields a pair that falsifies the loop guard, with 1 <= n2 <= n1 <= 100 and quotient n1 / n2 |
| `Questions.MathOperation.constructor` | SimpleMathGame/Program.cs:92-100 | `new Add()` and the others draw both operands from [1, 101); `new Divide()` then has an exact quotient (the class invariant `Valid`) |
| `Questions.MathOperation.ValidateNumbers` | SimpleMathGame/Program.cs:122-131 | the loop body runs at most once and not at all when the drawn pair already divides (then the pair is kept); afterwards n2 != 0, n1 % n2 == 0 and 1 <= n2 <= n1 <= 100 |
| `Questions.MathOperation.Result` | SimpleMathGame/Program.cs:105-132 | the expected answer is exact arithmetic on the operands: sum, difference or product with their bounds, and for `Divide` a quotient q with q * n2 == n1 |
| `Questions.MathOperation.Evaluate` | SimpleMathGame/Program.cs:101 | an answer is accepted exactly when it is the mathematically correct one: n1+n2, n1-n2, n1*n2, or the a with a * n2 == n1 for division; so `Result()` is accepted and every other answer rejected |
| `PlayerInput.FirstAcceptedFromSpec` | SimpleMathGame/Program.cs:140-146 | reading from any line on returns the first line that parsed to a value within [from, to], having skipped only rejected lines, or reports that no remaining line qualifies |
| `PlayerInput.FirstAccepted` | SimpleMathGame/Program.cs:138-147 | a reader never consumes more lines than there are, returns only a value in [from, to], and returns nothing only after consuming every line |
| `PlayerInput.FirstAcceptedSpec` | SimpleMathGame/Program.cs:138-147 | the same for the whole input: only a parsed, in-range value is returned and every line before it was unparsable or out of range |
| `PlayerInput.ReadInt` | SimpleMathGame/Program.cs:138-147 | the retry loop returns what `FirstAccepted` specifies, and any value it returns lies in [from, to] |
| `PlayerInput.ReadIntUpTo` | SimpleMathGame/Program.cs:148 | `ReadInt(To)` is `ReadInt(1, To)`: same result, value in [1, to] |
| `PlayerInput.ReadAnyInt` | SimpleMathGame/Program.cs:149 | `ReadInt()` takes the first line that parses at all, skipping only unparsable lines |
| `Records.Player.constructor` | SimpleMathGame/Program.cs:202-206 | a new player's record is empty |
| `Records.CorrectCount` | SimpleMathGame/Program.cs:178-182 | the number of correct entries is at most the record's length, zero exactly when no entry is correct, and the full length exactly when all are |
| `Records.CorrectCountAppend` | SimpleMathGame/Program.cs:178-182 | the correct count of a concatenated record is the sum of the counts of its parts |
| `GameUI.ShowRecord` | SimpleMathGame/Program.cs:172-188 | the tallies are `correct` = number of entries with a true evaluation and `correct + wrong` = number of entries |
| `Game.OperationTypeOf` | SimpleMathGame/Program.cs:8 | the cast to `OperationType` names a member exactly for 1..5, and that member's value is the number cast |
| `Game.SwitchArm` | SimpleMathGame/Program.cs:49-59 | 1 takes the `Random` arm, numbers outside 1..5 the default arm (`null`), and any other number the arm of the operation whose menu value it is |
| `Game.EntryRoundTrip` | SimpleMathGame/Program.cs:54-57 | each operation is built by exactly one menu number, and that number leads back to it |
| `Game.Resolve` | SimpleMathGame/Program.cs:47-59 | following the recursion: `Random` never gives `null` and never `Divide`; it stays undecided only while every draw is `Random` again; `null` exactly for choices outside 1..5 |
| `Game.RandomTakesFirstConcreteDraw` | SimpleMathGame/Program.cs:51-52 | `Random` settles on the operation named by the first draw that is not `Random` |
| `Game.RandomReachesAllButDivide` | SimpleMathGame/Program.cs:52 | each of Add, Subtract and Multiply can come out of `Random` on a single draw |
| `Game.SimpleMathGame.constructor` | SimpleMathGame/Program.cs:15-19 | a new game has a fresh player with an empty record |
| `Game.SimpleMathGame.SelectOption` | SimpleMathGame/Program.cs:38-46 | choice 0 gives no question and consumes the lines the additional-options menu reads; any other choice reads nothing and gives what `QuestionMaker` gives: the question `Resolve` determines from the menu draws made, which are the generator's next draws in order, which lie in [1, 5), at most `fuel` of them, and all `fuel` of them when it is still undecided |
| `Game.SimpleMathGame.AdditionalOptions` | SimpleMathGame/Program.cs:61-72 | reads a choice with `ReadInt(options.Length)`, i.e. in [1, 1], consuming what that reader consumes; on 1 (History) it shows the record's tallies: correct entries and the rest; otherwise nothing |
| `Game.SimpleMathGame.QuestionMaker` | SimpleMathGame/Program.cs:47-60 | the question built is the one `Resolve` determines from the menu draws made, which are the generator's next draws in order (and all its draws when the result is `null`), fresh and valid, or `null`; the draws lie in [1, 5) |
| `Game.SimpleMathGame.GiveResult` | SimpleMathGame/Program.cs:79-86 | exactly one entry, with `Evaluation == question.Evaluate(answer)`, is appended at the end of the record, earlier entries unchanged; the correct tally grows by one exactly when the answer was right |
| `Game.SimpleMathGame.PlayRound` | SimpleMathGame/Program.cs:20-36 | one pass of the main loop records an entry exactly when the menu choice read is 1..5, the dispatch settles on a question and a parsed answer line follows; the entry is appended after the earlier ones, holds a fresh valid question of the dispatched kind, the next parsed line as answer, its own judgement of that answer and the elapsed time; otherwise the record is unchanged; the dispatch draws are the generator's next draws in order; the `Random` entry makes at most `fuel` draws and gives up only after all `fuel` of them; the lines consumed are those the choice, the additional-options read and the answer read take |

## Left out

- Console output: `GameUI.List`, `Prompt`, `ShowMathOperation`, `ShowResult` and the printing in `ShowRecord` only write text.
- `ToString` of the operations and of `Result`: display text built by library int-to-string formatting.
- `int.TryParse`: the console is a sequence of lines already parsed (`None` for a failed parse). Where the lines run out, the source never returns: on an open console it blocks for more input, and at end of input `Console.ReadLine()` gives `null`, the parse fails and the loop repeats its message forever. The model's `None` result stands for both.
- `System.Random`: the `Generator` stands in with a linear congruential step; only the range of each draw is relied on, and the uniformity of the draws (and so of the `Random` menu entry) is not stated.
- `Stopwatch`: the elapsed milliseconds are a parameter of `PlayRound`.
- `Run`'s endless loop: `PlayRound` models one pass of it.
- `AdditionalOptions`: the history listing itself is output; only its tallies (from `GameUI.ShowRecord`) are returned.
- `MathOperation(From, To)` with a range other than [1, 101): no subclass declares a constructor that passes one, so every question is built on the default range.
- `Enum.GetNames`: the menu is the constant `OperationNames`, five names in value order.
- Game.SimpleMathGame.QuestionMaker: the `Random` arm may recur at most `fuel` times and then gives `null`, where the source keeps drawing until a draw is not `Random` (it stops with probability 1, but not after any fixed number of draws).
- Game.SimpleMathGame.SelectOption: inherits the `fuel` bound of `QuestionMaker`: on `Random` it may give `null` after `fuel` draws that were all `Random`.
- Game.SimpleMathGame.PlayRound: inherits the `fuel` bound of `QuestionMaker`: on `Random` the pass may record nothing after `fuel` draws that were all `Random`.
- Questions.Compute: requires a nonzero divisor and excludes `int.MinValue / -1` instead of modelling the exceptions C# throws there; a constructed `Divide` never reaches either case.

=== FILE: CSharpInt.dfy ===
/**
 * The C# integer semantics the game relies on: 32-bit `int` and 64-bit `long`,
 * unchecked wrap-around of `+`, `-` and `*`, and the `/` and `%` operators, which
 * truncate toward zero (Dafny's own `/` and `%` are Euclidean).
 */
module CSharpInt {

  const MinInt32: int := -0x8000_0000
  const MaxInt32: int := 0x7fff_ffff
  const MinInt64: int := -0x8000_0000_0000_0000
  const MaxInt64: int := 0x7fff_ffff_ffff_ffff

  type Int32 = x: int | MinInt32 <= x <= MaxInt32
  type Int64 = x: int | MinInt64 <= x <= MaxInt64

  /** The value an unchecked 32-bit operation leaves behind: `x` reduced modulo 2^32 into
      Int32, which is `x` itself whenever `x` already fits. */
  function Wrap32(x: int): (r: Int32)
    ensures (r - x) % 0x1_0000_0000 == 0
    ensures MinInt32 <= x <= MaxInt32 ==> r == x
  {
    var k := x - MinInt32;
    assert 0 <= k < 0x1_0000_0000 ==> k % 0x1_0000_0000 == k;
    k % 0x1_0000_0000 + MinInt32
  }

  function Abs(x: int): nat
  {
    if x < 0 then -x else x
  }

  /** C#'s integer `/`: the quotient of the magnitudes, negated when the signs differ. */
  function TruncDiv(a: int, b: int): int
    requires b != 0
  {
    if (a < 0) == (b < 0) then Abs(a) / Abs(b) else -(Abs(a) / Abs(b))
  }

  /** C#'s integer `%`: what is left after the truncating quotient; it takes the sign of `a`. */
  function TruncRem(a: int, b: int): int
    requires b != 0
  {
    a - b * TruncDiv(a, b)
  }

  /** On a non-negative dividend and a positive divisor both operators agree with Dafny's. */
  lemma TruncAgreesOnNatural(a: int, b: int)
    requires 0 <= a && 0 < b
    ensures TruncDiv(a, b) == a / b
    ensures TruncRem(a, b) == a % b
  {
  }

  lemma MulNonneg(x: int, y: int)
    requires 0 <= x && 0 <= y
    ensures 0 <= x * y
  {
  }

  lemma MulMono(x: int, y: int, z: int)
    requires x <= y && 0 <= z
    ensures x * z <= y * z
  {
    MulNonneg(y - x, z);
    assert (y - x) * z == y * z - x * z;
  }

  /** A natural quotient by a positive divisor is at most the dividend. */
  lemma QuotientAtMostDividend(x: nat, y: nat)
    requires 1 <= y
    ensures x / y <= x
  {
    var q := x / y;
    assert q * y + x % y == x && 0 <= x % y;
    MulMono(1, y, q);
    assert y * q == q * y;
  }

  /** A natural quotient by a divisor of at least two is at most half the dividend. */
  lemma QuotientAtMostHalf(x: nat, y: nat)
    requires 2 <= y
    ensures 2 * (x / y) <= x
  {
    var q := x / y;
    assert q * y + x % y == x && 0 <= x % y;
    MulMono(2, y, q);
    assert y * q == q * y;
  }

  /** C# raises an exception exactly for a zero divisor and for `int.MinValue / -1`;
      every other quotient of two Int32 values is itself an Int32. */
  lemma TruncDivInt32(a: Int32, b: Int32)
    requires b != 0 && !(a == MinInt32 && b == -1)
    ensures MinInt32 <= TruncDiv(a, b) <= MaxInt32
  {
    var m := Abs(a) / Abs(b);
    assert TruncDiv(a, b) == m || TruncDiv(a, b) == -m;
    if Abs(b) == 1 {
      assert m == Abs(a);
      assert b == 1 ==> TruncDiv(a, b) == a;
      assert b == -1 ==> TruncDiv(a, b) == -a;
    } else {
      QuotientAtMostHalf(Abs(a), Abs(b));
      assert 2 * m <= 0x8000_0000;
    }
  }
}

=== FILE: Game.dfy ===
/**
 * `SimpleMathGame`: the menu dispatch that turns a choice into a question, the recording
 * of an answered question in the player's record, and one pass of the main loop.
 */
module Game {
  import opened Wrappers
  import opened CSharpInt
  import opened Randomizer
  import opened Questions
  import opened Records
  import PlayerInput
  import GameUI

  /** The entries of the additional-options menu. */
  const AdditionalOptionNames: seq<string> := ["History"]

  /** The menu entries, with the enum's underlying values `Random = 1` to `Division = 5`. */
  datatype OperationType = Random | Addition | Subtraction | Multiplication | Division {
    function Value(): int
    {
      match this
      case Random => 1
      case Addition => 2
      case Subtraction => 3
      case Multiplication => 4
      case Division => 5
    }
  }

  /** `Enum.GetNames(typeof(OperationType))`: the menu, in the order of the values. */
  const OperationNames: seq<string> := ["Random", "Addition", "Subtraction", "Multiplication", "Division"]

  /** The cast `(OperationType)n`: a declared member for 1..5, an unnamed value otherwise. */
  function OperationTypeOf(n: int): (t: Option<OperationType>)
    ensures t.Some? <==> 1 <= n <= |OperationNames|
    ensures t.Some? ==> t.value.Value() == n
  {
    if n == 1 then Some(Random)
    else if n == 2 then Some(Addition)
    else if n == 3 then Some(Subtraction)
    else if n == 4 then Some(Multiplication)
    else if n == 5 then Some(Division)
    else None
  }

  /** The menu entry that builds each kind of question. */
  function EntryFor(kind: Kind): OperationType
  {
    match kind
    case Add => Addition
    case Subtract => Subtraction
    case Multiply => Multiplication
    case Divide => Division
  }

  /** The arm of `QuestionMaker`'s switch that a choice selects. */
  datatype Arm = RandomArm | KindArm(kind: Kind) | DefaultArm

  function SwitchArm(choice: int): (a: Arm)
    ensures a.RandomArm? <==> choice == Random.Value()
    ensures a.DefaultArm? <==> !(1 <= choice <= |OperationNames|)
    ensures a.KindArm? ==> EntryFor(a.kind).Value() == choice
  {
    match OperationTypeOf(choice)
    case None => DefaultArm
    case Some(Random) => RandomArm
    case Some(Addition) => KindArm(Add)
    case Some(Subtraction) => KindArm(Subtract)
    case Some(Multiplication) => KindArm(Multiply)
    case Some(Division) => KindArm(Divide)
  }

  /** Every kind of question has exactly one menu number, and it leads back to that kind. */
  lemma EntryRoundTrip(kind: Kind)
    ensures SwitchArm(EntryFor(kind).Value()) == KindArm(kind)
    ensures forall n :: SwitchArm(n) == KindArm(kind) ==> n == EntryFor(kind).Value()
  {
  }

  /** What `QuestionMaker` ends up with: a question of some kind, `null`, or (only in this
      model) no decision because the supplied redraws ran out while still on `Random`. */
  datatype Selection = Question(kind: Kind) | NullQuestion | RedrawsExhausted

  /** The draws `Next(1, Operations.Length)` of the `Random` arm lie in [1, 5). */
  predicate RedrawsInRange(redraws: seq<int>)
  {
    forall i | 0 <= i < |redraws| :: 1 <= redraws[i] < |OperationNames|
  }

  /** `QuestionMaker(choice)` followed through its recursion, `redraws` being the values the
      `Random` arm draws in turn. The `Random` arm never yields `null` and never `Divide`,
      and it stays undecided only while every draw is `Random` again. */
  function Resolve(choice: int, redraws: seq<int>): (s: Selection)
    requires RedrawsInRange(redraws)
    ensures choice == Random.Value() ==> !s.NullQuestion? && (s.Question? ==> s.kind != Divide)
    ensures s.RedrawsExhausted? ==> choice == Random.Value()
    ensures s.RedrawsExhausted? ==> forall i | 0 <= i < |redraws| :: redraws[i] == Random.Value()
    ensures s.NullQuestion? <==> !(1 <= choice <= |OperationNames|)
    decreases |redraws|
  {
    match SwitchArm(choice)
    case DefaultArm => NullQuestion
    case KindArm(k) => Question(k)
    case RandomArm =>
      if redraws == [] then RedrawsExhausted
      else
        var rest := redraws[1..];
        assert forall i | 0 <= i < |rest| :: rest[i] == redraws[i + 1];
        Resolve(redraws[0], rest)
  }

  /** The `Random` arm settles on the kind named by the first draw that is not `Random`. */
  lemma {:induction false} RandomTakesFirstConcreteDraw(redraws: seq<int>, i: nat)
    requires RedrawsInRange(redraws)
    requires i < |redraws| && redraws[i] != Random.Value()
    requires forall j | 0 <= j < i :: redraws[j] == Random.Value()
    ensures SwitchArm(redraws[i]).KindArm?
    ensures Resolve(Random.Value(), redraws) == Question(SwitchArm(redraws[i]).kind)
  {
    var rest := redraws[1..];
    assert forall j | 0 <= j < |rest| :: rest[j] == redraws[j + 1];
    if i > 0 {
      RandomTakesFirstConcreteDraw(rest, i - 1);
    }
  }

  /** Each of Add, Subtract and Multiply can come out of `Random` on a single draw. */
  lemma RandomReachesAllButDivide(kind: Kind)
    requires kind != Divide
    ensures exists d :: 1 <= d < |OperationNames| && Resolve(Random.Value(), [d]) == Question(kind)
  {
    var d := EntryFor(kind).Value();
    assert Resolve(Random.Value(), [d]) == Resolve(d, []);
  }

  /** `q` is what `Resolve` promises: a valid question of the chosen kind, or `null`. */
  ghost predicate Produces(s: Selection, q: MathOperation?)
    reads q
  {
    match s
    case Question(k) => q != null && q.kind == k && q.Valid()
    case _ => q == null
  }

  class SimpleMathGame {
    const operations: seq<string> := OperationNames
    const currentPlayer: Player

    constructor ()
      ensures fresh(currentPlayer) && currentPlayer.record == []
    {
      currentPlayer := new Player();
    }

    /** `SelectOption`: choice 0 opens the additional options, which read their own
        choice from the following lines, and gives no question; any other choice is
        passed to `QuestionMaker`, which reads no input. */
    method SelectOption(choice: int, lines: seq<Option<Int32>>, rng: Generator, fuel: nat)
      returns (q: MathOperation?, consumed: nat, ghost redraws: seq<int>)
      modifies rng
      ensures RedrawsInRange(redraws) && |redraws| <= fuel
      ensures choice == 0 ==> q == null && redraws == []
      ensures choice == 0 ==> consumed == PlayerInput.FirstAccepted(lines, 1, |AdditionalOptionNames|).1
      ensures choice != 0 ==> consumed == 0 && Produces(Resolve(choice, redraws), q)
      ensures choice != 0 && Resolve(choice, redraws).RedrawsExhausted? ==> |redraws| == fuel
      ensures old(rng.drawn) + redraws <= rng.drawn
      ensures q == null ==> rng.drawn == old(rng.drawn) + redraws
      ensures q != null ==> fresh(q)
    {
      if choice == 0 {
        var shown;
        consumed, shown := AdditionalOptions(lines);
        return null, consumed, [];
      }
      consumed := 0;
      q, redraws := QuestionMaker(choice, rng, fuel);
    }

    /** `AdditionalOptions`: read a choice in [1, options.Length] and, for 1 (History), show
        the record's tallies, which are returned here instead of printed. */
    method AdditionalOptions(lines: seq<Option<Int32>>) returns (consumed: nat, shown: Option<(nat, nat)>)
      ensures consumed == PlayerInput.FirstAccepted(lines, 1, |AdditionalOptionNames|).1
      ensures PlayerInput.FirstAccepted(lines, 1, |AdditionalOptionNames|).0 == Some(1)
        ==> shown == Some((CorrectCount(currentPlayer.record), |currentPlayer.record| - CorrectCount(currentPlayer.record)))
      ensures PlayerInput.FirstAccepted(lines, 1, |AdditionalOptionNames|).0 != Some(1) ==> shown == None
    {
      var choice;
      choice, consumed := PlayerInput.ReadIntUpTo(|AdditionalOptionNames| as Int32, lines);
      if choice == Some(1) {
        var correct, wrong := GameUI.ShowRecord(currentPlayer.record);
        shown := Some((correct, wrong));
      } else {
        shown := None;
      }
    }

    /** `QuestionMaker`: the switch over the choice; its `Random` arm draws from
        [1, Operations.Length) and dispatches again. `fuel` bounds how often that arm may
        recur; when it runs out the model gives `null`. */
    method QuestionMaker(choice: int, rng: Generator, fuel: nat) returns (q: MathOperation?, ghost redraws: seq<int>)
      modifies rng
      ensures RedrawsInRange(redraws) && |redraws| <= fuel
      ensures Produces(Resolve(choice, redraws), q)
      ensures Resolve(choice, redraws).RedrawsExhausted? ==> |redraws| == fuel
      ensures old(rng.drawn) + redraws <= rng.drawn
      ensures q == null ==> rng.drawn == old(rng.drawn) + redraws
      ensures q != null ==> fresh(q)
      decreases fuel
    {
      match SwitchArm(choice)
      case DefaultArm =>
        q, redraws := null, [];
      case KindArm(k) =>
        q := new MathOperation(k, rng);
        redraws := [];
      case RandomArm =>
        if fuel == 0 {
          q, redraws := null, [];
        } else {
          var next := rng.Next(1, |operations| as Int32);
          ghost var rest;
          q, rest := QuestionMaker(next, rng, fuel - 1);
          redraws := [next] + rest;
          assert redraws[1..] == rest;
        }
    }

    /** `GiveResult`: appends one entry, judged by the question itself, to the end of the
        player's record; the correct tally grows by one exactly when the answer was right. */
    method GiveResult(question: MathOperation, answer: Int32, time: Int64)
      requires question.Valid()
      modifies currentPlayer
      ensures currentPlayer.record == old(currentPlayer.record) + [Result(question, answer, question.Evaluate(answer), time)]
      ensures CorrectCount(currentPlayer.record)
        == CorrectCount(old(currentPlayer.record)) + (if question.Evaluate(answer) then 1 else 0)
    {
      var evaluation := question.Evaluate(answer);
      var result := Result(question, answer, evaluation, time);
      CorrectCountAppend(currentPlayer.record, [result]);
      currentPlayer.record := currentPlayer.record + [result];
    }

    /** One pass of `Run`'s loop: read a choice in [0, Operations.Length], build the
        question, read the answer and record it. The time the answer took is a parameter.
        A question is recorded exactly when the choice is 1..5, the dispatch settles on a
        question and an answer line follows; it is then the next parsed line. When the
        lines run out the pass stops without recording. */
    method PlayRound(lines: seq<Option<Int32>>, rng: Generator, elapsed: Int64, fuel: nat)
      returns (consumed: nat, ghost redraws: seq<int>)
      modifies currentPlayer, rng
      ensures RedrawsInRange(redraws) && |redraws| <= fuel
      ensures old(rng.drawn) + redraws <= rng.drawn
      ensures
        var (choice, k) := PlayerInput.FirstAccepted(lines, 0, |OperationNames|);
        (choice.Some? && choice.value != 0 && Resolve(choice.value, redraws).RedrawsExhausted?)
        ==> |redraws| == fuel
      ensures
        var (choice, k) := PlayerInput.FirstAccepted(lines, 0, |OperationNames|);
        var (answer, m) := PlayerInput.FirstAccepted(lines[k..], MinInt32, MaxInt32);
        && (choice.None? ==> consumed == |lines|)
        && (choice == Some(0) ==>
              consumed == k + PlayerInput.FirstAccepted(lines[k..], 1, |AdditionalOptionNames|).1)
        && (choice.Some? && choice.value != 0 && !Resolve(choice.value, redraws).Question? ==> consumed == k)
        && (choice.Some? && choice.value != 0 && Resolve(choice.value, redraws).Question? ==> consumed == k + m)
      ensures
        var (choice, k) := PlayerInput.FirstAccepted(lines, 0, |OperationNames|);
        var (answer, m) := PlayerInput.FirstAccepted(lines[k..], MinInt32, MaxInt32);
        if choice.Some? && choice.value != 0 && Resolve(choice.value, redraws).Question? && answer.Some? then
          && |currentPlayer.record| == |old(currentPlayer.record)| + 1
          && currentPlayer.record[..|old(currentPlayer.record)|] == old(currentPlayer.record)
          && var r := currentPlayer.record[|old(currentPlayer.record)|];
             && fresh(r.question) && r.question.Valid()
             && r.question.kind == Resolve(choice.value, redraws).kind
             && r.answer == answer.value
             && r.evaluation == r.question.Evaluate(r.answer)
             && r.time == elapsed
        else
          currentPlayer.record == old(currentPlayer.record)
    {
      var choice;
      choice, consumed := PlayerInput.ReadInt(0, |operations| as Int32, lines);
      if choice.None? {
        redraws := [];
        return;
      }
      var question, used;
      question, used, redraws := SelectOption(choice.value, lines[consumed..], rng, fuel);
      consumed := consumed + used;
      if question == null {
        return;
      }
      var answer, more := PlayerInput.ReadAnyInt(lines[consumed..]);
      consumed := consumed + more;
      if answer.None? {
        return;
      }
      GiveResult(question, answer.value, elapsed);
    }
  }
}

=== FILE: GameUI.dfy ===
/**
 * `GameUI.ShowRecord` without its output: the loop that tallies correct and wrong answers.
 */
module GameUI {
  import opened Records

  /** The `foreach` over the record: every entry adds one to exactly one of the tallies. */
  method ShowRecord(record: seq<Result>) returns (correct: nat, wrong: nat)
    ensures correct == CorrectCount(record)
    ensures correct + wrong == |record|
  {
    correct, wrong := 0, 0;
    for i := 0 to |record|
      invariant correct == CorrectCount(record[..i])
      invariant correct + wrong == i
    {
      assert record[..i + 1][..i] == record[..i];
      if record[i].evaluation {
        correct := correct + 1;
      } else {
        wrong := wrong + 1;
      }
    }
    assert record[..|record|] == record;
  }
}

=== FILE: PlayerInput.dfy ===
/**
 * `PlayerInput.ReadInt`: read console lines until one parses as an `int` inside a closed
 * range. The console is a finite sequence of lines already passed through
 * `int.TryParse`: `None` is a line that did not parse, `Some(n)` one that gave `n`.
 * Where the lines run out the source never returns (it blocks on an open console, and
 * at end of input it keeps failing to parse `null`); the model reports that the lines
 * ran out instead. Each reader also returns how many lines it consumed, so that the caller can go
 * on reading after them.
 */
module PlayerInput {
  import opened Wrappers
  import opened CSharpInt

  /** The test of the retry loop: the line parsed and its value lies in [from, to]. */
  predicate Accepts(line: Option<Int32>, from: int, to: int)
  {
    line.Some? && from <= line.value && line.value <= to
  }

  /** What reading from line `i` on yields: the first accepted value and the number of
      lines consumed up to and including it, or `None` with every line consumed. */
  function FirstAcceptedFrom(lines: seq<Option<Int32>>, from: int, to: int, i: nat): (Option<Int32>, nat)
    requires i <= |lines|
    decreases |lines| - i
  {
    if i == |lines| then (None, |lines|)
    else if Accepts(lines[i], from, to) then (lines[i], i + 1)
    else FirstAcceptedFrom(lines, from, to, i + 1)
  }

  /** What a reader yields on the whole input: an accepted value, or nothing once every line is consumed. */
  function FirstAccepted(lines: seq<Option<Int32>>, from: int, to: int): (r: (Option<Int32>, nat))
    ensures r.1 <= |lines|
    ensures r.0.Some? ==> from <= r.0.value <= to
    ensures r.0.None? ==> r.1 == |lines|
  {
    FirstAcceptedFromSpec(lines, from, to, 0);
    FirstAcceptedFrom(lines, from, to, 0)
  }

  /** Reading from line `i` returns the first line at or after `i` that is accepted, having
      skipped only rejected lines; when it returns nothing, no line from `i` on is accepted. */
  lemma {:induction false} FirstAcceptedFromSpec(lines: seq<Option<Int32>>, from: int, to: int, i: nat)
    requires i <= |lines|
    ensures var (n, consumed) := FirstAcceptedFrom(lines, from, to, i);
      && i <= consumed <= |lines|
      && (n.Some? ==> i < consumed && lines[consumed - 1] == n && Accepts(n, from, to))
      && (n.Some? ==> forall j | i <= j < consumed - 1 :: !Accepts(lines[j], from, to))
      && (n.None? ==> consumed == |lines|)
      && (n.None? ==> forall j | i <= j < |lines| :: !Accepts(lines[j], from, to))
    decreases |lines| - i
  {
    if i < |lines| && !Accepts(lines[i], from, to) {
      FirstAcceptedFromSpec(lines, from, to, i + 1);
    }
  }

  /** The whole-input form of `FirstAcceptedFromSpec`. */
  lemma FirstAcceptedSpec(lines: seq<Option<Int32>>, from: int, to: int)
    ensures var (n, consumed) := FirstAccepted(lines, from, to);
      && consumed <= |lines|
      && (n.Some? ==> 0 < consumed && lines[consumed - 1] == n && from <= n.value <= to)
      && (n.Some? ==> forall j | 0 <= j < consumed - 1 :: !Accepts(lines[j], from, to))
      && (n.None? ==> consumed == |lines| && forall j | 0 <= j < |lines| :: !Accepts(lines[j], from, to))
  {
    FirstAcceptedFromSpec(lines, from, to, 0);
  }

  /** `ReadInt(From, To)`: returns only a parsed value within [from, to]. */
  method ReadInt(from: Int32, to: Int32, lines: seq<Option<Int32>>) returns (n: Option<Int32>, consumed: nat)
    ensures (n, consumed) == FirstAccepted(lines, from, to)
    ensures n.Some? ==> from <= n.value <= to
  {
    consumed := 0;
    while consumed < |lines|
      invariant consumed <= |lines|
      invariant FirstAcceptedFrom(lines, from, to, consumed) == FirstAccepted(lines, from, to)
    {
      var line := lines[consumed];
      consumed := consumed + 1;
      if line.Some? && line.value >= from && line.value <= to {
        return line, consumed;
      }
    }
    n := None;
  }

  /** `ReadInt(To)`: the same reader with the lower bound 1. */
  method ReadIntUpTo(to: Int32, lines: seq<Option<Int32>>) returns (n: Option<Int32>, consumed: nat)
    ensures (n, consumed) == FirstAccepted(lines, 1, to)
    ensures n.Some? ==> 1 <= n.value <= to
  {
    n, consumed := ReadInt(1, to, lines);
  }

  /** `ReadInt()`: the range is all of `int`, so the first line that parses is taken and
      only unparsable lines are skipped. */
  method ReadAnyInt(lines: seq<Option<Int32>>) returns (n: Option<Int32>, consumed: nat)
    ensures (n, consumed) == FirstAccepted(lines, MinInt32, MaxInt32)
    ensures consumed <= |lines|
    ensures n.Some? ==> 0 < consumed && lines[consumed - 1] == n
    ensures n.Some? ==> forall j | 0 <= j < consumed - 1 :: lines[j].None?
    ensures n.None? ==> forall j | 0 <= j < |lines| :: lines[j].None?
  {
    n, consumed := ReadInt(MinInt32, MaxInt32, lines);
    FirstAcceptedSpec(lines, MinInt32, MaxInt32);
  }
}

=== FILE: Questions.dfy ===
/**
 * The question model: the four arithmetic operations of `MathOperation`, their operands,
 * their expected result and the check of a player's answer. The source's abstract class
 * with one subclass per operation becomes one class tagged with a `Kind`.
 */
module Questions {
  import opened CSharpInt
  import opened Randomizer

  /** The range of the parameterless constructor `MathOperation() : this(1, 101)`. */
  const DefaultFrom: Int32 := 1
  const DefaultTo: Int32 := 101
  /** `Divide` redraws its divisor and its quotient from [1, 11). */
  const DivideFrom: Int32 := 1
  const DivideTo: Int32 := 11

  datatype Kind = Add | Subtract | Multiply | Divide

  predicate InDefaultRange(n: int)
  {
    DefaultFrom <= n < DefaultTo
  }

  /** C# throws for a zero divisor and for `int.MinValue / -1`; nothing else stops `Result()`. */
  predicate Computable(kind: Kind, n1: Int32, n2: Int32)
  {
    kind == Divide ==> n2 != 0 && !(n1 == MinInt32 && n2 == -1)
  }

  /** The operation on unbounded integers, the reference for what `Result()` should give. */
  function Exact(kind: Kind, n1: int, n2: int): int
    requires kind == Divide ==> n2 != 0
  {
    match kind
    case Add => n1 + n2
    case Subtract => n1 - n2
    case Multiply => n1 * n2
    case Divide => TruncDiv(n1, n2)
  }

  /** `Result()` of each variant, in C#'s unchecked 32-bit arithmetic. */
  function Compute(kind: Kind, n1: Int32, n2: Int32): (r: Int32)
    requires Computable(kind, n1, n2)
    ensures (r - Exact(kind, n1, n2)) % 0x1_0000_0000 == 0
    ensures MinInt32 <= Exact(kind, n1, n2) <= MaxInt32 ==> r == Exact(kind, n1, n2)
  {
    match kind
    case Add => Wrap32(n1 + n2)
    case Subtract => Wrap32(n1 - n2)
    case Multiply => Wrap32(n1 * n2)
    case Divide => TruncDivInt32(n1, n2); TruncDiv(n1, n2)
  }

  /** The guard of `Divide.ValidateNumbers`: the pair must be redrawn. */
  predicate NeedsRedraw(n1: Int32, n2: Int32)
  {
    n2 == 0 || TruncRem(n1, n2) != 0
  }

  /** What a constructed `Divide` holds: both operands in the default range, the divisor
      at most the dividend, and an exact quotient. */
  predicate DivideOperands(n1: int, n2: int)
  {
    InDefaultRange(n1) && InDefaultRange(n2) && n2 <= n1 && n1 % n2 == 0
  }

  /** With operands from [1, 101), sum, difference and product never leave `int`, so the
      results are the mathematical ones, within the stated bounds. */
  lemma DefaultResultsExact(n1: Int32, n2: Int32)
    requires InDefaultRange(n1) && InDefaultRange(n2)
    ensures Compute(Add, n1, n2) == n1 + n2 && 2 <= n1 + n2 <= 200
    ensures Compute(Subtract, n1, n2) == n1 - n2 && -99 <= n1 - n2 <= 99
    ensures Compute(Multiply, n1, n2) == n1 * n2 && 1 <= n1 * n2 <= 10000
  {
    ProductBound(n1, n2, 100);
  }

  /** Two factors from [1, bound] have a product in [1, bound * bound], at least each factor. */
  lemma ProductBound(a: int, b: int, bound: int)
    requires 1 <= a <= bound && 1 <= b <= bound
    ensures 1 <= a * b <= bound * bound
    ensures a <= a * b && b <= a * b
  {
    MulMono(a, bound, b);
    MulMono(b, bound, bound);
    assert b * bound == bound * b;
    MulMono(1, a, b);
    MulMono(1, b, a);
    assert b * a == a * b;
  }

  /** A multiple of a positive `d` divides by `d` exactly, giving back the factor. */
  lemma MultipleDivMod(d: int, q: int)
    requires 0 < d
    ensures (d * q) / d == q && (d * q) % d == 0
  {
    var a := d * q;
    var k := a / d;
    var r := a % d;
    assert a == d * k + r && 0 <= r < d;
    assert d * (q - k) == r;
    if q - k >= 1 {
      MulMono(1, q - k, d);
    } else if q - k <= -1 {
      MulMono(q - k, -1, d);
    }
  }

  /** A positive divisor that divides a positive dividend is no larger than it. */
  lemma DivisorAtMostDividend(n1: int, n2: int)
    requires 1 <= n1 && 1 <= n2 && n1 % n2 == 0
    ensures n2 <= n1
  {
    var q := n1 / n2;
    assert n1 == n2 * q;
    assert q >= 1;
    assert n2 * (q - 1) >= 0;
  }

  /** For a constructed `Divide`, the quotient times the divisor gives back the dividend. */
  lemma DivideResultExact(n1: Int32, n2: Int32)
    requires DivideOperands(n1, n2)
    ensures Computable(Divide, n1, n2)
    ensures Compute(Divide, n1, n2) * n2 == n1
    ensures 1 <= Compute(Divide, n1, n2) <= 100
  {
    TruncAgreesOnNatural(n1, n2);
    var q := n1 / n2;
    assert n1 == n2 * q;
    assert q >= 1;
    QuotientAtMostDividend(n1, n2);
  }

  /** One pass of the redraw loop: divisor `d` and quotient `q` from [1, 11) give the pair
      (d * q, d), which no longer meets the loop guard and is a valid `Divide`. */
  lemma RedrawSettles(d: int, q: int)
    requires DivideFrom <= d < DivideTo && DivideFrom <= q < DivideTo
    ensures MinInt32 <= d * q <= MaxInt32
    ensures !NeedsRedraw(d * q, d)
    ensures DivideOperands(d * q, d)
    ensures (d * q) / d == q
  {
    ProductBound(d, q, 10);
    TruncAgreesOnNatural(d * q, d);
    MultipleDivMod(d, q);
  }

  class MathOperation {
    const kind: Kind
    const rangeFrom: Int32
    const rangeTo: Int32
    var n1: Int32
    var n2: Int32

    /** The state every constructed question is in. */
    ghost predicate Valid()
      reads this
    {
      && rangeFrom == DefaultFrom && rangeTo == DefaultTo
      && (if kind == Divide then DivideOperands(n1, n2) else InDefaultRange(n1) && InDefaultRange(n2))
    }

    /** `new Add()`, `new Subtract()`, `new Multiply()`, `new Divide()`: draw both operands
        from [1, 101), and for `Divide` redraw until the quotient is exact. */
    constructor (kind: Kind, rng: Generator)
      modifies rng
      ensures this.kind == kind
      ensures Valid()
      ensures old(rng.drawn) <= rng.drawn
    {
      this.kind := kind;
      rangeFrom, rangeTo := DefaultFrom, DefaultTo;
      var a := rng.Next(DefaultFrom, DefaultTo);
      var b := rng.Next(DefaultFrom, DefaultTo);
      n1, n2 := a, b;
      new;
      if kind == Divide {
        ghost var iterations := ValidateNumbers(rng);
      }
    }

    /** `Divide.ValidateNumbers`: the body runs at most once, and not at all when the
        drawn pair already divides, in which case the pair is kept. */
    method ValidateNumbers(rng: Generator) returns (ghost iterations: nat)
      requires kind == Divide && rangeFrom == DefaultFrom && rangeTo == DefaultTo
      requires InDefaultRange(n1) && InDefaultRange(n2)
      modifies this, rng
      ensures Valid()
      ensures !NeedsRedraw(n1, n2)
      ensures iterations <= 1
      ensures iterations == 0 <==> !NeedsRedraw(old(n1), old(n2))
      ensures iterations == 0 ==> n1 == old(n1) && n2 == old(n2)
      ensures iterations == 1 ==> n2 < DivideTo && n1 / n2 < DivideTo
      ensures old(rng.drawn) <= rng.drawn
    {
      iterations := 0;
      while NeedsRedraw(n1, n2)
        invariant InDefaultRange(n1) && InDefaultRange(n2)
        invariant iterations <= 1
        invariant iterations == 0 ==> n1 == old(n1) && n2 == old(n2)
        invariant iterations == 1 ==> DivideOperands(n1, n2) && !NeedsRedraw(n1, n2)
        invariant iterations == 1 ==> NeedsRedraw(old(n1), old(n2))
        invariant iterations == 1 ==> n2 < DivideTo && n1 / n2 < DivideTo
        invariant old(rng.drawn) <= rng.drawn
        decreases if NeedsRedraw(n1, n2) then 1 else 0
      {
        n2 := rng.Next(DivideFrom, DivideTo);
        var quotient := rng.Next(DivideFrom, DivideTo);
        RedrawSettles(n2, quotient);
        n1 := n2 * quotient;
        iterations := iterations + 1;
      }
      TruncAgreesOnNatural(n1, n2);
      if iterations == 0 {
        DivisorAtMostDividend(n1, n2);
      }
    }

    /** `Result()`: the expected answer, which for these operands is exact arithmetic. */
    function Result(): (r: Int32)
      reads this
      requires Valid()
      ensures kind == Add ==> r == n1 + n2 && 2 <= r <= 200
      ensures kind == Subtract ==> r == n1 - n2 && -99 <= r <= 99
      ensures kind == Multiply ==> r == n1 * n2 && 1 <= r <= 10000
      ensures kind == Divide ==> r * n2 == n1 && 1 <= r <= 100
    {
      if kind == Divide then
        DivideResultExact(n1, n2);
        Compute(kind, n1, n2)
      else
        DefaultResultsExact(n1, n2);
        Compute(kind, n1, n2)
    }

    /** `Evaluate(answer)`: the answer is accepted exactly when it is the mathematically
        correct one for the operands shown. */
    predicate Evaluate(answer: Int32)
      reads this
      requires Valid()
      ensures kind == Add ==> (Evaluate(answer) <==> answer == n1 + n2)
      ensures kind == Subtract ==> (Evaluate(answer) <==> answer == n1 - n2)
      ensures kind == Multiply ==> (Evaluate(answer) <==> answer == n1 * n2)
      ensures kind == Divide ==> (Evaluate(answer) <==> answer * n2 == n1)
    {
      var r := Result();
      assert kind == Divide ==> (answer * n2 == n1 ==> (answer - r) * n2 == 0);
      Result() == answer
    }
  }
}

=== FILE: Randomizer.dfy ===
/**
 * The process-wide random source (`Randomizer.Generate`), passed explicitly.
 * `Next(lo, hi)` has the contract of .NET's `Random.Next(int, int)`: a value in the
 * half-open range [lo, hi), or `lo` itself when the range is empty. The linear
 * congruential step inside is only one generator meeting that contract; callers
 * rely on the contract alone.
 */
module Randomizer {
  import opened CSharpInt

  const Modulus: nat := 0x8000_0000
  const Multiplier: nat := 1103515245
  const Increment: nat := 12345

  class Generator {
    var state: nat
    /** Every value handed out so far, oldest first. */
    ghost var drawn: seq<int>

    constructor (seed: nat)
      ensures state == seed % Modulus
      ensures drawn == []
    {
      state := seed % Modulus;
      drawn := [];
    }

    /** `Random.Next(lo, hi)`; the source's callers never pass `lo > hi`, which .NET rejects. */
    method Next(lo: Int32, hi: Int32) returns (r: Int32)
      requires lo <= hi
      modifies this
      ensures lo == hi ==> r == lo
      ensures lo < hi ==> lo <= r < hi
      ensures drawn == old(drawn) + [r]
    {
      if lo == hi {
        r := lo;
      } else {
        r := lo + state % (hi - lo);
      }
      state := (state * Multiplier + Increment) % Modulus;
      drawn := drawn + [r];
    }
  }
}

=== FILE: Records.dfy ===
/**
 * What the game remembers: one `Result` per answered question, kept in the player's
 * `Record` in the order the questions were answered.
 */
module Records {
  import opened CSharpInt
  import opened Questions

  /** One answered question: the question, the submitted answer, whether it was correct,
      and the elapsed milliseconds. */
  datatype Result = Result(question: MathOperation, answer: Int32, evaluation: bool, time: Int64)

  class Player {
    var record: seq<Result>

    constructor ()
      ensures record == []
    {
      record := [];
    }
  }

  /** The number of entries whose `evaluation` is true. */
  function CorrectCount(record: seq<Result>): (n: nat)
    ensures n <= |record|
    ensures n == 0 <==> forall i | 0 <= i < |record| :: !record[i].evaluation
    ensures n == |record| <==> forall i | 0 <= i < |record| :: record[i].evaluation
  {
    if record == [] then 0
    else
      var init := record[..|record| - 1];
      assert forall i | 0 <= i < |init| :: init[i] == record[i];
      CorrectCount(init) + (if record[|record| - 1].evaluation then 1 else 0)
  }

  /** Counting is additive over concatenation, so appending an entry adds one to the
      correct count exactly when that entry is correct. */
  lemma {:induction false} CorrectCountAppend(a: seq<Result>, b: seq<Result>)
    ensures CorrectCount(a + b) == CorrectCount(a) + CorrectCount(b)
    decreases |b|
  {
    if b != [] {
      var b' := b[..|b| - 1];
      assert (a + b)[..|a + b| - 1] == a + b';
      CorrectCountAppend(a, b');
    } else {
      assert a + b == a;
    }
  }
}

=== FILE: Wrappers.dfy ===
/** The usual optional-value datatype, used for parse results and for inputs that run out. */
module Wrappers {

  datatype Option<+T> = None | Some(value: T)
}
